=== FILE: README.md ===
# Circularity insight pages — verified model of the page logic

The repository is a React front end for life-cycle assessments of metal production. It shows fixed
sample data: every input figure (scores, emissions, energy, hotspot shares, recommendations) is a
literal in a fixture. The pages compute only a few derived figures, such as the percentage
differences between scenarios and the wizard's progress. That logic is a handful of small pure
helpers inside four page components.
This project models those helpers in Dafny and proves what they promise:

- **Compare** (`compare.dfy`, `src/pages/Compare.tsx`): scenario lookup by select value, the
  percentage-difference rule `getDifference` with its "lower is better" reversal, the comparison
  shown only when both selections resolve, `toFixed(1)` as rounding to tenths, and the summary card.
- **Wizard** (`wizard.dfy`, `src/pages/NewAssessment.tsx`): the five steps, the step counter with
  guarded next/previous, progress, the step strip, the navigation buttons, the form record updated
  one field at a time, and the two coupled content sliders.
- **Results** (`results.dfy`, `src/pages/Results.tsx`): the score level and colour bands, the
  feasibility badge, the cost-change icon and sign, and the consistency of the result fixture.
- **Reports** (`reports.dfy`, `src/pages/Reports.tsx`): the report-history filter, the empty-state
  message, the type badge colour and the format icon.
- **Text** (`text.dfy`): ASCII lower-casing, substring search and decimal rendering of ids.
- **Common** (`common.dfy`): `Option`, the result of a lookup that may find nothing.

Numbers are Dafny `real`s. Strings are `seq<char>`.

Two facts about the code shape the model:
- `getDifference` divides by its first argument without a guard (src/pages/Compare.tsx:41).
  `Compare.GetDifference` therefore requires a non-zero baseline.
- The recommendation fixture's ranks are not ordered by estimated CO2 reduction: rank 2 promises
  1.8 t and rank 1 only 1.2 t (src/pages/Results.tsx:27-46). `Results.RecommendationFixtureRanks`
  proves that its ranks are dense but not sorted by reduction.

## Model

| member | source | states |
|---|---|---|
| Compare.GetScenario | src/pages/Compare.tsx:35-38 | finds nothing exactly when no scenario's decimal id equals the key; otherwise it finds a scenario of the list with that id |
| Compare.GetScenarioFindsFirst | src/pages/Compare.tsx:35 | the scenario found is the first one with that id: no earlier scenario has it (as `Array.find`) |
| Compare.SelectingAnItemFindsIt | src/pages/Compare.tsx:78-82 | with distinct ids, the value of each select item (its id as a string) looks up exactly that scenario |
| Compare.MockScenariosWellFormed | src/pages/Compare.tsx:8-29 | the fixture has distinct ids and 100 % total content per scenario; "1" and "2" find the two scenarios; "3" and "01" find nothing |
| Compare.GetDifference | src/pages/Compare.tsx:40-47 | the magnitude is non-negative and equals 100·\|val2−val1\|/\|val1\|; the flag is positive exactly when the change has the favourable sign (up, or down when reversed), for negative baselines too |
| Compare.DifferenceWithItself | src/pages/Compare.tsx:40-46 | a value compared with itself gives magnitude 0 and no improvement, whatever the reverse flag |
| Compare.HigherIsBetter | src/pages/Compare.tsx:41-45 | without reversal and with a positive baseline, positive exactly when val2 > val1 |
| Compare.LowerIsBetter | src/pages/Compare.tsx:41-45 | with reversal and a positive baseline, positive exactly when val2 < val1 |
| Compare.ReverseFlipsOnlyTheSign | src/pages/Compare.tsx:42-44 | the reverse flag leaves the magnitude unchanged; for a real change exactly one reading is positive, and for no change neither is |
| Compare.SwapFlipsPositivity | src/pages/Compare.tsx:41-45 | for distinct positive values, swapping the arguments flips the positivity flag |
| Compare.Abs | src/pages/Compare.tsx:44 | `Math.abs`: the result is non-negative and is the value or its negation |
| Compare.ToFixed1 | src/pages/Compare.tsx:44 | `toFixed(1)` as a count of tenths: the nearest tenth, with ties away from zero |
| Compare.CompareScenarios | src/pages/Compare.tsx:111-203 | a comparison exists exactly when both keys resolve, and only Scenario A's metrics must be non-zero; each row prints the change in percent of A's value, positive when circularity rose or CO2 / energy fell (sign relative to the baseline) |
| Compare.ZeroEmissionScenarioB | src/pages/Compare.tsx:158-167 | a Scenario B with zero CO2 is still compared, and its CO2 row reads a 100.0 % improvement |
| Compare.MockBaselinesNonZero | src/pages/Compare.tsx:13-25 | every fixture metric is non-zero, so any two fixture scenarios can be compared |
| Compare.DefaultComparison | src/pages/Compare.tsx:130-195 | the default selection shows 17.7 %, 33.3 % and 26.4 %, each with the up-trend icon (circularity rose, CO2 and energy fell) |
| Compare.SummaryAsWritten | src/pages/Compare.tsx:254-266 | the summary as written claims an improvement on all three lines, whatever the sign, and each line prints its metric's magnitude rounded to tenths |
| Compare.SummaryAsWrittenMisreports | src/pages/Compare.tsx:254-266 | with the selections swapped, CO2 rises but the summary claims it was reduced by 50.0 % |
| Compare.Summary | src/pages/Compare.tsx:254-266 | the corrected summary claims an improvement on a line exactly when that metric's flag is positive, and prints that metric's magnitude rounded to tenths |
| Compare.SummaryIsTruthful | src/pages/Compare.tsx:254-266 | with positive baselines, the corrected summary claims an improvement exactly when circularity rose or CO2 / energy fell |
| Text.LowerChar | src/pages/Reports.tsx:58-59 | lower-casing one character leaves no upper-case letter; it shifts A–Z by 32 and changes nothing else |
| Text.ToLower | src/pages/Reports.tsx:58-59 | `toLowerCase` keeps the length and leaves no upper-case letter |
| Text.ToLowerIdempotent | src/pages/Reports.tsx:58-59 | lower-casing twice is lower-casing once |
| Text.Contains | src/pages/Reports.tsx:58-59 | `includes`: the needle is a prefix of the haystack or of one of its suffixes; Text.ContainsIffOccurs ties it to "occurs at some position" |
| Text.ContainsIffOccurs | src/pages/Reports.tsx:58-59 | the left-to-right `includes` search succeeds exactly when the needle occurs at some position |
| Text.ContainsEmpty | src/pages/Reports.tsx:58-59 | every string contains the empty search term |
| Text.NatToString | src/pages/Compare.tsx:35 | the decimal rendering of an id is non-empty, all digits, and has no leading zero |
| Text.ParseNatToString | src/pages/Compare.tsx:35 | reading the rendering of an id gives the id back |
| Text.NatToStringInjective | src/pages/Compare.tsx:35 | two ids render to the same string exactly when they are equal |
| Wizard.NextStep | src/pages/NewAssessment.tsx:50-54 | advances by one below the last step, stays put at or after it, and keeps a valid step valid |
| Wizard.PrevStep | src/pages/NewAssessment.tsx:56-60 | goes back by one above step 1, stays put at or below it, and keeps a valid step valid |
| Wizard.RunKeepsStepValid | src/pages/NewAssessment.tsx:50-60 | any sequence of Next/Previous presses keeps the counter within 1..5 |
| Wizard.ReachableStepsValid | src/pages/NewAssessment.tsx:34-60 | every step reachable from the initial step 1 lies in 1..5 |
| Wizard.BoundaryNavigationIsNoOp | src/pages/NewAssessment.tsx:50-60 | Next at step 5 and Previous at step 1 change nothing |
| Wizard.NextPrevInverse | src/pages/NewAssessment.tsx:50-60 | on valid steps, Previous undoes Next below 5 and Next undoes Previous above 1 |
| Wizard.CurrentStepInfo | src/pages/NewAssessment.tsx:119-120 | on a valid step, `steps[currentStep - 1]` is in bounds and is the step whose id is the current step |
| Wizard.Progress | src/pages/NewAssessment.tsx:68 | progress is step × 20 %; on valid steps it lies in [20, 100] and is 100 exactly at the last step |
| Wizard.ProgressMonotone | src/pages/NewAssessment.tsx:68 | progress grows with the step, so Next never lowers it |
| Wizard.StepMarker | src/pages/NewAssessment.tsx:93-102 | a step is drawn current exactly when it is the current step, and completed exactly when it comes before it |
| Wizard.StripMarksOneCurrent | src/pages/NewAssessment.tsx:91-113 | the strip shows exactly one current step and exactly the steps before it as completed |
| Wizard.ButtonsMatchGuards | src/pages/NewAssessment.tsx:298-316 | Run Assessment is offered only at step 5, exactly where Next would do nothing; Previous is disabled exactly where Previous would do nothing |
| Wizard.Forward | src/pages/NewAssessment.tsx:307-316 | on a valid step the right-hand button is Run Assessment exactly where Next would do nothing |
| Wizard.PreviousDisabled | src/pages/NewAssessment.tsx:299-302 | on a valid step Previous is disabled exactly where Previous would do nothing |
| Wizard.UpdateData | src/pages/NewAssessment.tsx:46-48 | the written field reads back the new value and every other field is unchanged |
| Wizard.UpdateLaws | src/pages/NewAssessment.tsx:46-48 | writing back a field's current value is a no-op, and of two writes to one field the later wins |
| Wizard.Get | src/pages/NewAssessment.tsx:46-48 | reads the field named by `field` (`data[field]`); Wizard.UpdateData and Wizard.UpdateLaws state the read-after-write laws through it |
| Wizard.OnPrimarySlide | src/pages/NewAssessment.tsx:158-161 | the primary slider sets primary content to the slider value, keeps primary + recycled = 100, and leaves every other field alone |
| Wizard.OnRecycledSlide | src/pages/NewAssessment.tsx:171-174 | the recycled slider sets recycled content to the slider value, keeps primary + recycled = 100, and leaves every other field alone |
| Wizard.SlidersStayInRange | src/pages/NewAssessment.tsx:156-178 | a slider value in 0..100 leaves both contents in 0..100 |
| Wizard.SlidersAgree | src/pages/NewAssessment.tsx:156-178 | setting primary to x gives the same record as setting recycled to 100 − x |
| Wizard.InitialStateValid | src/pages/NewAssessment.tsx:34-44 | the wizard starts at step 1 with 70/30 content, satisfying the invariant, at 20 % progress |
| Wizard.Perform | src/pages/NewAssessment.tsx:123-244 | one user action: navigation changes only the step, and slider moves and edits change only the form record |
| Wizard.ActionsPreserveInvariant | src/pages/NewAssessment.tsx:123-244 | navigation, slider moves and edits of fields other than the two contents keep the step valid and the contents at 100 |
| Results.CircularityLevel | src/pages/Results.tsx:62-67 | the levels partition scores: ≥ 80 Excellent, [60, 80) Good, [40, 60) Fair, < 40 Poor |
| Results.CircularityColor | src/pages/Results.tsx:56-60 | the colours partition scores: ≥ 80 success, [60, 80) warning, < 60 destructive |
| Results.LevelMonotone | src/pages/Results.tsx:62-67 | a higher score never gives a lower level |
| Results.ColorAgreesWithLevel | src/pages/Results.tsx:56-67 | success ⇔ Excellent, warning ⇔ Good, destructive ⇔ Fair or Poor |
| Results.FeasibilityTone | src/pages/Results.tsx:261-263 | the badge is success exactly for 'High' and warning exactly for 'Medium'; every other string is destructive |
| Results.FeasibilityTonesOrdered | src/pages/Results.tsx:261-263 | 'High', 'Medium' and 'Low' get success, warning and destructive, more alarming as feasibility drops |
| Results.CostTrend | src/pages/Results.tsx:276-280 | the down-trend icon appears exactly for a negative cost change |
| Results.CostPrefix | src/pages/Results.tsx:282 | the '+' prefix appears exactly for a strictly positive change; otherwise there is no prefix |
| Results.CostDisplayConsistent | src/pages/Results.tsx:276-282 | '+' never appears beside the down-trend icon; a zero change shows the up-trend icon with no '+' |
| Results.ValuesSumFollowsShares | src/pages/Results.tsx:15-22 | if each hotspot tonnage is its share of a total, the tonnages sum to the share sum times the total / 100 |
| Results.HotspotFixtureConsistent | src/pages/Results.tsx:15-22 | fixture shares sum to 100, come largest first, each tonnage is share × 4.2 / 100, and the tonnages sum to 4.2 |
| Results.RecommendationFixtureRanks | src/pages/Results.tsx:25-50 | fixture ranks are 1, 2, 3 in order, but are not sorted by estimated CO2 reduction |
| Results.FixtureDisplay | src/pages/Results.tsx:99-103 | the fixture's 78.5 score reads "Good" in the warning colour |
| Reports.FilterReports | src/pages/Reports.tsx:57-64 | the result is an order-preserving sub-list of the reports; it holds only matching reports and keeps every copy of each matching one |
| Reports.MatchesSearch | src/pages/Reports.tsx:58-59 | the search matches when the lower-cased term occurs in the lower-cased report name or assessment name |
| Reports.MatchesType | src/pages/Reports.tsx:60 | the type select matches when it is 'all' or equals the report's type |
| Reports.MatchesFormat | src/pages/Reports.tsx:61 | the format select matches when it is 'all' or equals the report's format |
| Reports.Matches | src/pages/Reports.tsx:57-64 | the filter callback: a report is kept when search, type and format all match |
| Reports.NoReportsFound | src/pages/Reports.tsx:225-230 | the empty-state message appears exactly when no report matches |
| Reports.FilterKeepsAllMatching | src/pages/Reports.tsx:57-64 | a list in which every report matches is returned whole |
| Reports.FilterIdempotent | src/pages/Reports.tsx:57-64 | filtering the filtered list again changes nothing |
| Reports.NoCriteriaKeepsAll | src/pages/Reports.tsx:53-64 | the initial criteria (empty search, all types, all formats) show every report |
| Reports.StricterFilterSublist | src/pages/Reports.tsx:57-64 | criteria accepting fewer reports show an order-preserving sub-list of the looser result |
| Reports.NarrowingTypeFilter | src/pages/Reports.tsx:60 | replacing 'all' by a specific type gives a sub-list of the previous result |
| Reports.NarrowingFormatFilter | src/pages/Reports.tsx:61 | replacing 'all' by a specific format gives a sub-list of the previous result |
| Reports.FilterCongruent | src/pages/Reports.tsx:57-64 | criteria that accept the same reports give the same list |
| Reports.SearchIgnoresCase | src/pages/Reports.tsx:58-59 | lower-casing the search term does not change the result |
| Reports.FormatOnlyCriteria | src/pages/Reports.tsx:58-61 | with an empty search and all types, a report matches exactly when the format select is 'all' or equals its format |
| Reports.ExcelFilterOnFixture | src/pages/Reports.tsx:9-64 | filtering the fixture by format 'Excel' leaves just the steel data export |
| Reports.UpperCaseSearchOnFixture | src/pages/Reports.tsx:57-64 | searching the fixture for "COPPER" keeps the copper-wire report |
| Reports.ShownIconsFollowFormatFilter | src/pages/Reports.tsx:57-88 | with the format select on 'PDF' every shown report has the document icon; with any other specific format every shown report has the chart icon |
| Reports.TypeColor | src/pages/Reports.tsx:76-84 | the muted fallback class is returned exactly for strings outside the four known types |
| Reports.TypeColorDistinguishesKnownTypes | src/pages/Reports.tsx:76-84 | the four known types get pairwise different classes |
| Reports.GetFormatIcon | src/pages/Reports.tsx:86-88 | the document icon appears exactly for 'PDF'; every other format gets the chart icon |

## Left out

- Compare.GetDifference: a zero baseline is excluded by a precondition. The page divides without a guard, so JavaScript would show `Infinity` or `NaN`.
- Compare.CompareScenarios: requires Scenario A's three metrics to be non-zero, because each row divides by them. For a zero metric the page would print `Infinity` or `NaN`, which the model does not represent. Scenario B may hold any values.
- Compare.ToFixed1: rounds the exact real value. JavaScript rounds the nearest IEEE-754 double, so it can differ on ties that are not exact in binary.
- Text.LowerChar: lower-cases ASCII letters only. `toLowerCase` also folds non-ASCII letters.
- Reports.TypeColor: treats every string outside the four types as unknown. In JavaScript, names inherited from `Object.prototype`, such as 'toString', return a non-string instead of the fallback.
- Wizard.ActionsPreserveInvariant: assumes the generic field edits never target the two content fields. On the page only the sliders write them.
- The plant-capacity input's `parseInt(...) || 0` (src/pages/NewAssessment.tsx:240) is library coercion. The model lets an edit store any value.
- Slider ranges and steps (0–100 step 5, 50–2000 km, 10–95 %) are enforced by the slider widget, not by the page. Only `Wizard.SlidersStayInRange` uses the 0–100 range.
- `handleSubmit` (src/pages/NewAssessment.tsx:62-66) only logs the data and navigates. Both are I/O.
- `Math.round(progress)` (src/pages/NewAssessment.tsx:84) is omitted. Progress on a valid step is always a multiple of 20, so rounding changes nothing.
- The review step's display fallbacks ('Unnamed Assessment', 'Not selected') are rendering only.
- `formatDate`, `toLocaleString` and `toLocaleDateString` are locale-dependent formatting.
- The recommendation descriptions are left out of the result fixture. They are display text only.
- React state, JSX rendering, routing, tabs and the Admin, Dashboard and Layout components are presentation only.

## Findings

| source | as written | input that shows it | evidently intended | confidence | as-written member | corrected member |
|---|---|---|---|---|---|---|
| src/pages/Compare.tsx:254-266 | Every summary line shows the up-trend icon and says "better", "reduced" or "improved". It prints only the magnitude of the difference. | Scenario A = "2" (Optimized), Scenario B = "1" (Current). CO2 goes from 2.8 t to 4.2 t, yet the line reads "CO₂ emissions reduced by 50.0% in Scenario B". | Each line claims an improvement only when that metric's row is positive, as the metric rows above it do. | medium; not executed | Compare.SummaryAsWritten, Compare.SummaryAsWrittenMisreports | Compare.Summary, Compare.SummaryIsTruthful |

=== FILE: common.dfy ===
/** Shared wrapper for lookups that may find nothing (the `undefined` of `Array.find`). */
module Common {

  datatype Option<+T> = None | Some(value: T)
}

=== FILE: compare.dfy ===
/**
 * The scenario comparison page (src/pages/Compare.tsx): lookup of a scenario
 * by the string value of a select box, the percentage-difference rule with
 * its "lower is better" reversal, and the comparison shown when both
 * selections resolve.
 */
module Compare {
  import opened Common
  import Text

  datatype Scenario = Scenario(
    id: nat,
    name: string,
    metal: string,
    circularityScore: real,
    co2Tonnes: real,
    energyKwh: real,
    primaryPct: real,
    recycledPct: real)

  /** The two fixture scenarios the page offers. */
  const MockScenarios: seq<Scenario> := [
    Scenario(1, "Current Production", "aluminium", 72.5, 4.2, 12500.0, 70.0, 30.0),
    Scenario(2, "Optimized Scenario", "aluminium", 85.3, 2.8, 9200.0, 40.0, 60.0)
  ]

  function Abs(x: real): (r: real)
    ensures r >= 0.0 && (r == x || r == -x)
  {
    if x < 0.0 then -x else x
  }

  /**
   * `getScenario`: the first scenario whose id, rendered in decimal, equals
   * the select value `key`, or None.
   */
  function GetScenario(scenarios: seq<Scenario>, key: string): (r: Option<Scenario>)
    ensures r.None? <==> forall s :: s in scenarios ==> Text.NatToString(s.id) != key
    ensures r.Some? ==> r.value in scenarios && Text.NatToString(r.value.id) == key
  {
    if scenarios == [] then None
    else if Text.NatToString(scenarios[0].id) == key then Some(scenarios[0])
    else GetScenario(scenarios[1..], key)
  }

  /** `find` returns the first match: no scenario before the found one has the key. */
  lemma {:induction false} GetScenarioFindsFirst(scenarios: seq<Scenario>, key: string)
    ensures var r := GetScenario(scenarios, key);
            r.Some? ==> exists i :: 0 <= i < |scenarios| && scenarios[i] == r.value &&
                          forall j :: 0 <= j < i ==> Text.NatToString(scenarios[j].id) != key
    decreases |scenarios|
  {
    var r := GetScenario(scenarios, key);
    if scenarios != [] && r.Some? {
      if Text.NatToString(scenarios[0].id) == key {
        assert scenarios[0] == r.value;
      } else {
        var tail := scenarios[1..];
        GetScenarioFindsFirst(tail, key);
        var i :| 0 <= i < |tail| && tail[i] == r.value &&
                 forall j :: 0 <= j < i ==> Text.NatToString(tail[j].id) != key;
        assert scenarios[i + 1] == r.value;
        assert forall j :: 1 <= j < i + 1 ==> scenarios[j] == tail[j - 1];
      }
    }
  }

  predicate DistinctIds(scenarios: seq<Scenario>) {
    forall i, j :: 0 <= i < j < |scenarios| ==> scenarios[i].id != scenarios[j].id
  }

  /**
   * Every select item's value is its scenario's id as a string, so choosing
   * any item finds exactly that scenario when ids are distinct.
   */
  lemma SelectingAnItemFindsIt(scenarios: seq<Scenario>, k: nat)
    requires DistinctIds(scenarios)
    requires k < |scenarios|
    ensures GetScenario(scenarios, Text.NatToString(scenarios[k].id)) == Some(scenarios[k])
  {
    var key := Text.NatToString(scenarios[k].id);
    var r := GetScenario(scenarios, key);
    GetScenarioFindsFirst(scenarios, key);
    var i :| 0 <= i < |scenarios| && scenarios[i] == r.value &&
             forall j :: 0 <= j < i ==> Text.NatToString(scenarios[j].id) != key;
    Text.NatToStringInjective(scenarios[i].id, scenarios[k].id);
  }

  /** The fixture's ids are distinct and each scenario's content shares add up to 100. */
  lemma MockScenariosWellFormed()
    ensures DistinctIds(MockScenarios)
    ensures forall s :: s in MockScenarios ==> s.primaryPct + s.recycledPct == 100.0
    ensures GetScenario(MockScenarios, "1") == Some(MockScenarios[0])
    ensures GetScenario(MockScenarios, "2") == Some(MockScenarios[1])
    ensures GetScenario(MockScenarios, "3") == None
    ensures GetScenario(MockScenarios, "01") == None
  {
    SelectingAnItemFindsIt(MockScenarios, 0);
    SelectingAnItemFindsIt(MockScenarios, 1);
    assert Text.NatToString(1) == "1";
    assert Text.NatToString(2) == "2";
  }

  /** What `getDifference` returns: the magnitude before `toFixed(1)`, and the sign flag. */
  datatype Difference = Difference(magnitude: real, isPositive: bool)

  /**
   * `d` reports the change from `val1` to `val2`: its magnitude is the change
   * in percent of `|val1|`, and it is positive exactly when the change has
   * the favourable sign (up, or down when lower is better), taken relative
   * to the sign of the baseline.
   */
  predicate DescribesChange(d: Difference, val1: real, val2: real, isReverse: bool) {
    && d.magnitude * Abs(val1) == Abs(val2 - val1) * 100.0
    && (d.isPositive <==>
          if isReverse then (val2 - val1) * val1 < 0.0 else (val2 - val1) * val1 > 0.0)
  }

  /**
   * `getDifference(val1, val2, isReverse)`: the relative change from `val1`
   * to `val2` in percent, negated when lower is better. The division is not
   * guarded in the page, so a zero baseline is excluded.
   */
  function GetDifference(val1: real, val2: real, isReverse: bool): (r: Difference)
    requires val1 != 0.0
    ensures r.magnitude >= 0.0
    ensures DescribesChange(r, val1, val2, isReverse)
  {
    var diff := ((val2 - val1) / val1) * 100.0;
    var actualDiff := if isReverse then -diff else diff;
    Difference(Abs(actualDiff), actualDiff > 0.0)
  }

  /** Comparing a value with itself reports no change and no improvement. */
  lemma DifferenceWithItself(v: real, isReverse: bool)
    requires v != 0.0
    ensures GetDifference(v, v, isReverse) == Difference(0.0, false)
  {
  }

  /** Higher is better: with a positive baseline, positive exactly when the value rose. */
  lemma HigherIsBetter(val1: real, val2: real)
    requires val1 > 0.0
    ensures GetDifference(val1, val2, false).isPositive <==> val2 > val1
  {
  }

  /** Lower is better: with a positive baseline, positive exactly when the value fell. */
  lemma LowerIsBetter(val1: real, val2: real)
    requires val1 > 0.0
    ensures GetDifference(val1, val2, true).isPositive <==> val2 < val1
  {
  }

  /**
   * The reverse flag only affects the sign: the magnitude is the same, and
   * for a real change exactly one of the two readings is positive.
   */
  lemma ReverseFlipsOnlyTheSign(val1: real, val2: real)
    requires val1 != 0.0
    ensures GetDifference(val1, val2, true).magnitude == GetDifference(val1, val2, false).magnitude
    ensures val1 != val2 ==>
              (GetDifference(val1, val2, true).isPositive <==> !GetDifference(val1, val2, false).isPositive)
    ensures val1 == val2 ==>
              !GetDifference(val1, val2, true).isPositive && !GetDifference(val1, val2, false).isPositive
  {
    var t := GetDifference(val1, val2, true);
    var f := GetDifference(val1, val2, false);
    assert t.magnitude * Abs(val1) == f.magnitude * Abs(val1);
  }

  /** Swapping two distinct positive values flips the improvement flag. */
  lemma SwapFlipsPositivity(val1: real, val2: real, isReverse: bool)
    requires val1 > 0.0 && val2 > 0.0 && val1 != val2
    ensures GetDifference(val2, val1, isReverse).isPositive <==> !GetDifference(val1, val2, isReverse).isPositive
  {
    assert (val2 - val1) * val1 > 0.0 <==> val2 > val1;
    assert (val1 - val2) * val2 > 0.0 <==> val1 > val2;
  }

  /**
   * `Number.prototype.toFixed(1)` on the exact value, as a count of tenths:
   * the nearest multiple of 0.1, ties going away from zero.
   */
  function ToFixed1(x: real): (tenths: int)
    ensures x >= 0.0 ==> tenths as real - 0.5 <= x * 10.0 < tenths as real + 0.5
    ensures x < 0.0 ==> tenths as real - 0.5 < x * 10.0 <= tenths as real + 0.5
  {
    var y := Abs(x) * 10.0 + 0.5;
    var f := y.Floor;
    if x >= 0.0 then f else -f
  }

  /** The three metric rows of the comparison card. */
  datatype Comparison = Comparison(circularity: Difference, co2: Difference, energy: Difference)

  predicate NonZeroBaselines(s: Scenario) {
    s.circularityScore != 0.0 && s.co2Tonnes != 0.0 && s.energyKwh != 0.0
  }

  /**
   * The comparison section: rendered only when both select values resolve.
   * Circularity is higher-is-better; CO2 and energy are lower-is-better.
   */
  function CompareScenarios(scenarios: seq<Scenario>, key1: string, key2: string): (r: Option<Comparison>)
    requires GetScenario(scenarios, key1).Some? ==> NonZeroBaselines(GetScenario(scenarios, key1).value)
    ensures r.Some? <==> GetScenario(scenarios, key1).Some? && GetScenario(scenarios, key2).Some?
    ensures r.Some? ==>
              var a := GetScenario(scenarios, key1).value;
              var b := GetScenario(scenarios, key2).value;
              && DescribesChange(r.value.circularity, a.circularityScore, b.circularityScore, false)
              && DescribesChange(r.value.co2, a.co2Tonnes, b.co2Tonnes, true)
              && DescribesChange(r.value.energy, a.energyKwh, b.energyKwh, true)
  {
    var s1 := GetScenario(scenarios, key1);
    var s2 := GetScenario(scenarios, key2);
    if s1.Some? && s2.Some? then
      var a := s1.value;
      var b := s2.value;
      Some(Comparison(
        GetDifference(a.circularityScore, b.circularityScore, false),
        GetDifference(a.co2Tonnes, b.co2Tonnes, true),
        GetDifference(a.energyKwh, b.energyKwh, true)))
    else
      None
  }

  /** Every fixture metric is non-zero, so any pair of fixture scenarios can be compared. */
  lemma MockBaselinesNonZero()
    ensures forall s :: s in MockScenarios ==> NonZeroBaselines(s)
  {
  }

  /**
   * Only Scenario A is divided by: a Scenario B with zero CO2 is compared,
   * and the page shows a 100.0% improvement.
   */
  lemma ZeroEmissionScenarioB()
    ensures
      var scenarios := [MockScenarios[0], MockScenarios[1].(co2Tonnes := 0.0)];
      var c := CompareScenarios(scenarios, "1", "2");
      && c.Some?
      && c.value.co2 == Difference(100.0, true)
  {
    var scenarios := [MockScenarios[0], MockScenarios[1].(co2Tonnes := 0.0)];
    SelectingAnItemFindsIt(scenarios, 0);
    SelectingAnItemFindsIt(scenarios, 1);
    assert Text.NatToString(1) == "1";
    assert Text.NatToString(2) == "2";
  }

  /**
   * The page's default selection ("1" against "2"): circularity up 17.7%,
   * CO2 down 33.3% and energy down 26.4%, each reported as an improvement.
   */
  lemma DefaultComparison()
    ensures
      var c := CompareScenarios(MockScenarios, "1", "2");
      && c.Some?
      && c.value.circularity.isPositive && ToFixed1(c.value.circularity.magnitude) == 177
      && c.value.co2.isPositive && ToFixed1(c.value.co2.magnitude) == 333
      && c.value.energy.isPositive && ToFixed1(c.value.energy.magnitude) == 264
  {
    MockScenariosWellFormed();
    var c := CompareScenarios(MockScenarios, "1", "2");
    assert c.value.circularity.magnitude == 12.8 / 72.5 * 100.0;
    assert c.value.co2.magnitude == 100.0 / 3.0;
    assert c.value.energy.magnitude == 26.4;
  }

  /** One summary line: whether it claims Scenario B improved, and the percentage it prints. */
  datatype SummaryLine = SummaryLine(claimsImprovement: bool, tenths: int)

  /**
   * The summary card as the page writes it: every line shows the up-trend
   * icon and the words "better", "reduced" or "improved", whatever the sign.
   */
  function SummaryAsWritten(c: Comparison): (r: seq<SummaryLine>)
    ensures |r| == 3
    ensures forall i :: 0 <= i < |r| ==> r[i].claimsImprovement
    ensures r[0].tenths == ToFixed1(c.circularity.magnitude)
    ensures r[1].tenths == ToFixed1(c.co2.magnitude)
    ensures r[2].tenths == ToFixed1(c.energy.magnitude)
  {
    [ SummaryLine(true, ToFixed1(c.circularity.magnitude)),
      SummaryLine(true, ToFixed1(c.co2.magnitude)),
      SummaryLine(true, ToFixed1(c.energy.magnitude)) ]
  }

  /**
   * With the selections swapped ("2" against "1") CO2 rises by 50%, yet the
   * summary as written says it was reduced by 50.0%.
   */
  lemma SummaryAsWrittenMisreports()
    ensures
      var c := CompareScenarios(MockScenarios, "2", "1");
      && c.Some?
      && !c.value.co2.isPositive
      && SummaryAsWritten(c.value)[1].claimsImprovement
      && SummaryAsWritten(c.value)[1].tenths == 500
  {
    MockScenariosWellFormed();
    var c := CompareScenarios(MockScenarios, "2", "1");
    assert c.value.co2.magnitude == 50.0;
  }

  /** The summary with the claim taken from the sign flag of each metric row. */
  function Summary(c: Comparison): (r: seq<SummaryLine>)
    ensures |r| == 3
    ensures r[0].claimsImprovement == c.circularity.isPositive
    ensures r[1].claimsImprovement == c.co2.isPositive
    ensures r[2].claimsImprovement == c.energy.isPositive
    ensures r[0].tenths == ToFixed1(c.circularity.magnitude)
    ensures r[1].tenths == ToFixed1(c.co2.magnitude)
    ensures r[2].tenths == ToFixed1(c.energy.magnitude)
  {
    [ SummaryLine(c.circularity.isPositive, ToFixed1(c.circularity.magnitude)),
      SummaryLine(c.co2.isPositive, ToFixed1(c.co2.magnitude)),
      SummaryLine(c.energy.isPositive, ToFixed1(c.energy.magnitude)) ]
  }

  /**
   * For positive baselines the corrected summary claims an improvement
   * exactly when circularity rose, or CO2 or energy fell, from A to B.
   */
  lemma SummaryIsTruthful(scenarios: seq<Scenario>, key1: string, key2: string)
    requires GetScenario(scenarios, key1).Some? ==> NonZeroBaselines(GetScenario(scenarios, key1).value)
    requires CompareScenarios(scenarios, key1, key2).Some?
    requires var a := GetScenario(scenarios, key1).value;
             a.circularityScore > 0.0 && a.co2Tonnes > 0.0 && a.energyKwh > 0.0
    ensures
      var a := GetScenario(scenarios, key1).value;
      var b := GetScenario(scenarios, key2).value;
      var lines := Summary(CompareScenarios(scenarios, key1, key2).value);
      && (lines[0].claimsImprovement <==> b.circularityScore > a.circularityScore)
      && (lines[1].claimsImprovement <==> b.co2Tonnes < a.co2Tonnes)
      && (lines[2].claimsImprovement <==> b.energyKwh < a.energyKwh)
  {
    var a := GetScenario(scenarios, key1).value;
    var b := GetScenario(scenarios, key2).value;
    assert (b.circularityScore - a.circularityScore) * a.circularityScore > 0.0 <==> b.circularityScore > a.circularityScore;
    assert (b.co2Tonnes - a.co2Tonnes) * a.co2Tonnes < 0.0 <==> b.co2Tonnes < a.co2Tonnes;
    assert (b.energyKwh - a.energyKwh) * a.energyKwh < 0.0 <==> b.energyKwh < a.energyKwh;
  }
}

=== FILE: reports.dfy ===
/**
 * The reports page (src/pages/Reports.tsx): the report-history filter
 * (case-insensitive search over two names, plus type and format selects),
 * the empty-state message, and the per-report badge colour and icon.
 */
module Reports {
  import Text

  datatype Report = Report(
    id: nat,
    name: string,
    assessmentName: string,
    reportType: string,
    format: string,
    generatedAt: string,
    size: string,
    status: string)

  const MockReports: seq<Report> := [
    Report(1, "Aluminium Automotive Component - Full Assessment", "Aluminium Automotive Part",
           "Full LCA Report", "PDF", "2024-01-15T10:30:00Z", "2.4 MB", "completed"),
    Report(2, "Copper Wire Production - Executive Summary", "Copper Wire Production",
           "Executive Summary", "PDF", "2024-01-14T15:45:00Z", "850 KB", "completed"),
    Report(3, "Steel Construction - Data Export", "Steel Construction Beam",
           "Data Export", "Excel", "2024-01-13T09:15:00Z", "1.1 MB", "completed"),
    Report(4, "Quarterly Sustainability Report", "Multiple Assessments",
           "Quarterly Report", "PDF", "2024-01-12T14:20:00Z", "3.8 MB", "completed")
  ]

  /** The search box and the two selects; `'all'` switches a select off. */
  datatype Criteria = Criteria(searchTerm: string, filterType: string, filterFormat: string)

  /** The page's initial criteria: empty search, all types, all formats. */
  const NoCriteria: Criteria := Criteria("", "all", "all")

  predicate MatchesSearch(r: Report, term: string) {
    Text.Contains(Text.ToLower(r.name), Text.ToLower(term)) ||
    Text.Contains(Text.ToLower(r.assessmentName), Text.ToLower(term))
  }

  predicate MatchesType(r: Report, filterType: string) {
    filterType == "all" || r.reportType == filterType
  }

  predicate MatchesFormat(r: Report, filterFormat: string) {
    filterFormat == "all" || r.format == filterFormat
  }

  /** The filter callback: search, type and format must all match. */
  predicate Matches(r: Report, c: Criteria) {
    MatchesSearch(r, c.searchTerm) && MatchesType(r, c.filterType) && MatchesFormat(r, c.filterFormat)
  }

  /** `xs` is obtained from `ys` by deleting elements, keeping the order of the rest. */
  predicate IsSublist<T(==)>(xs: seq<T>, ys: seq<T>)
    decreases |ys|
  {
    xs == [] ||
    (ys != [] && ((xs[0] == ys[0] && IsSublist(xs[1..], ys[1..])) || IsSublist(xs, ys[1..])))
  }

  /**
   * `filteredReports`: the reports that match, in their original order, each
   * kept as many times as it occurs.
   */
  function FilterReports(reports: seq<Report>, c: Criteria): (r: seq<Report>)
    ensures IsSublist(r, reports)
    ensures forall x :: x in r ==> Matches(x, c)
    ensures forall x :: x in reports && Matches(x, c) ==> x in r
    ensures forall x :: multiset(r)[x] == if Matches(x, c) then multiset(reports)[x] else 0
    decreases |reports|
  {
    if reports == [] then []
    else
      var rest := FilterReports(reports[1..], c);
      MultisetOfCons(reports);
      if Matches(reports[0], c) then [reports[0]] + rest else rest
  }

  /** A non-empty list's multiset is its head's plus its tail's. */
  lemma MultisetOfCons(reports: seq<Report>)
    requires |reports| > 0
    ensures multiset(reports) == multiset{reports[0]} + multiset(reports[1..])
  {
    assert reports == [reports[0]] + reports[1..];
  }

  /** The "No reports found" message is shown exactly when nothing matches. */
  function NoReportsFound(reports: seq<Report>, c: Criteria): (empty: bool)
    ensures empty <==> forall x :: x in reports ==> !Matches(x, c)
  {
    |FilterReports(reports, c)| == 0
  }

  /** A list in which everything matches is returned whole. */
  lemma {:induction false} FilterKeepsAllMatching(reports: seq<Report>, c: Criteria)
    requires forall x :: x in reports ==> Matches(x, c)
    ensures FilterReports(reports, c) == reports
    decreases |reports|
  {
    if reports != [] {
      assert reports[0] in reports;
      FilterKeepsAllMatching(reports[1..], c);
    }
  }

  /** Filtering the filtered list again changes nothing. */
  lemma FilterIdempotent(reports: seq<Report>, c: Criteria)
    ensures FilterReports(FilterReports(reports, c), c) == FilterReports(reports, c)
  {
    FilterKeepsAllMatching(FilterReports(reports, c), c);
  }

  /** With an empty search and both selects on 'all', every report is shown. */
  lemma NoCriteriaKeepsAll(reports: seq<Report>)
    ensures FilterReports(reports, NoCriteria) == reports
  {
    forall x | x in reports
      ensures Matches(x, NoCriteria)
    {
      Text.ContainsEmpty(Text.ToLower(x.name));
    }
    FilterKeepsAllMatching(reports, NoCriteria);
  }

  /** A stricter filter shows an order-preserving sub-list of a looser one. */
  lemma {:induction false} StricterFilterSublist(reports: seq<Report>, strict: Criteria, loose: Criteria)
    requires forall x :: Matches(x, strict) ==> Matches(x, loose)
    ensures IsSublist(FilterReports(reports, strict), FilterReports(reports, loose))
    decreases |reports|
  {
    if reports != [] {
      StricterFilterSublist(reports[1..], strict, loose);
      var s := FilterReports(reports, strict);
      var l := FilterReports(reports, loose);
      if Matches(reports[0], strict) {
        assert s[0] == l[0] && s[1..] == FilterReports(reports[1..], strict);
        assert l[1..] == FilterReports(reports[1..], loose);
      } else if Matches(reports[0], loose) {
        SublistOfTail(s, l);
      }
    }
  }

  /** A sub-list of the tail of `ys` is a sub-list of `ys`. */
  lemma SublistOfTail<T>(xs: seq<T>, ys: seq<T>)
    requires ys != [] && IsSublist(xs, ys[1..])
    ensures IsSublist(xs, ys)
  {
  }

  /** Choosing a specific type instead of 'all' can only remove reports. */
  lemma NarrowingTypeFilter(reports: seq<Report>, c: Criteria, t: string)
    requires c.filterType == "all"
    ensures IsSublist(FilterReports(reports, c.(filterType := t)), FilterReports(reports, c))
  {
    StricterFilterSublist(reports, c.(filterType := t), c);
  }

  /** Choosing a specific format instead of 'all' can only remove reports. */
  lemma NarrowingFormatFilter(reports: seq<Report>, c: Criteria, f: string)
    requires c.filterFormat == "all"
    ensures IsSublist(FilterReports(reports, c.(filterFormat := f)), FilterReports(reports, c))
  {
    StricterFilterSublist(reports, c.(filterFormat := f), c);
  }

  /** Filters that accept the same reports produce the same list. */
  lemma {:induction false} FilterCongruent(reports: seq<Report>, c: Criteria, d: Criteria)
    requires forall x :: Matches(x, c) <==> Matches(x, d)
    ensures FilterReports(reports, c) == FilterReports(reports, d)
    decreases |reports|
  {
    if reports != [] {
      FilterCongruent(reports[1..], c, d);
    }
  }

  /** The search ignores the case of the search term. */
  lemma SearchIgnoresCase(reports: seq<Report>, c: Criteria)
    ensures FilterReports(reports, c.(searchTerm := Text.ToLower(c.searchTerm))) == FilterReports(reports, c)
  {
    Text.ToLowerIdempotent(c.searchTerm);
    FilterCongruent(reports, c.(searchTerm := Text.ToLower(c.searchTerm)), c);
  }

  /** With an empty search and all types, only the format select decides. */
  lemma FormatOnlyCriteria(x: Report, f: string)
    ensures Matches(x, Criteria("", "all", f)) <==> x.format == f || f == "all"
  {
    Text.ContainsEmpty(Text.ToLower(x.name));
  }

  /** Filtering the fixture by the Excel format leaves the one data export. */
  lemma ExcelFilterOnFixture()
    ensures FilterReports(MockReports, Criteria("", "all", "Excel")) == [MockReports[2]]
  {
    var c := Criteria("", "all", "Excel");
    var rs := MockReports;
    FormatOnlyCriteria(rs[0], "Excel");
    FormatOnlyCriteria(rs[1], "Excel");
    FormatOnlyCriteria(rs[2], "Excel");
    FormatOnlyCriteria(rs[3], "Excel");
    assert FilterReports(rs[3..], c) == [];
    assert rs[2..][1..] == rs[3..];
    assert FilterReports(rs[2..], c) == [rs[2]];
    assert rs[1..][1..] == rs[2..];
    assert FilterReports(rs[1..], c) == [rs[2]];
  }

  /** Searching the fixture for "COPPER" finds the copper-wire report, whatever the case. */
  lemma UpperCaseSearchOnFixture()
    ensures MockReports[1] in FilterReports(MockReports, Criteria("COPPER", "all", "all"))
  {
    var x := MockReports[1];
    var term := Text.ToLower("COPPER");
    var hay := Text.ToLower(x.assessmentName);
    assert term == "copper";
    assert hay[..6] == "copper";
    assert Text.IsPrefix(term, hay);
    assert MockReports[1] in MockReports;
  }

  const KnownTypes: set<string> :=
    {"Full LCA Report", "Executive Summary", "Data Export", "Quarterly Report"}

  const FallbackTypeColor: string := "bg-muted text-muted-foreground"

  /** `getTypeColor`: a class string per known report type, the muted fallback otherwise. */
  function TypeColor(reportType: string): (cls: string)
    ensures cls == FallbackTypeColor <==> reportType !in KnownTypes
  {
    if reportType == "Full LCA Report" then "bg-primary text-primary-foreground"
    else if reportType == "Executive Summary" then "bg-blue-100 text-blue-800"
    else if reportType == "Data Export" then "bg-green-100 text-green-800"
    else if reportType == "Quarterly Report" then "bg-purple-100 text-purple-800"
    else FallbackTypeColor
  }

  /** Known types get pairwise different colours. */
  lemma TypeColorDistinguishesKnownTypes(t: string, u: string)
    requires t in KnownTypes && u in KnownTypes
    ensures TypeColor(t) == TypeColor(u) <==> t == u
  {
  }

  datatype FormatIcon = DocumentIcon | ChartIcon

  /** `getFormatIcon`: the document icon for 'PDF', the chart icon for anything else. */
  function GetFormatIcon(format: string): (icon: FormatIcon)
    ensures icon == DocumentIcon <==> format == "PDF"
  {
    if format == "PDF" then DocumentIcon else ChartIcon
  }

  /** Under a specific format filter, every shown report carries that format's icon. */
  lemma ShownIconsFollowFormatFilter(reports: seq<Report>, c: Criteria)
    ensures c.filterFormat == "PDF" ==>
              forall x :: x in FilterReports(reports, c) ==> GetFormatIcon(x.format) == DocumentIcon
    ensures c.filterFormat != "all" && c.filterFormat != "PDF" ==>
              forall x :: x in FilterReports(reports, c) ==> GetFormatIcon(x.format) == ChartIcon
  {
  }
}

=== FILE: results.dfy ===
/**
 * The results page (src/pages/Results.tsx): score bands for the circularity
 * score, the feasibility badge and cost-change trend of a recommendation,
 * and the internal consistency of the result fixture the page displays.
 */
module Results {

  /** The four performance levels of `getCircularityLevel`, worst first. */
  datatype Level = Poor | Fair | Good | Excellent

  /** The three status colours used by the page's badges and texts. */
  datatype Tone = Success | Warning | Destructive

  /** Position of a level on the worst-to-best scale. */
  function LevelRank(l: Level): nat {
    match l
    case Poor => 0
    case Fair => 1
    case Good => 2
    case Excellent => 3
  }

  /** `getCircularityLevel`: thresholds 80, 60 and 40, each inclusive. */
  function CircularityLevel(score: real): (l: Level)
    ensures l == Excellent <==> score >= 80.0
    ensures l == Good <==> 60.0 <= score < 80.0
    ensures l == Fair <==> 40.0 <= score < 60.0
    ensures l == Poor <==> score < 40.0
  {
    if score >= 80.0 then Excellent
    else if score >= 60.0 then Good
    else if score >= 40.0 then Fair
    else Poor
  }

  /** `getCircularityColor`: thresholds 80 and 60, each inclusive. */
  function CircularityColor(score: real): (t: Tone)
    ensures t == Success <==> score >= 80.0
    ensures t == Warning <==> 60.0 <= score < 80.0
    ensures t == Destructive <==> score < 60.0
  {
    if score >= 80.0 then Success
    else if score >= 60.0 then Warning
    else Destructive
  }

  /** A higher score never yields a lower level. */
  lemma LevelMonotone(s: real, t: real)
    requires s <= t
    ensures LevelRank(CircularityLevel(s)) <= LevelRank(CircularityLevel(t))
  {
  }

  /** Colour and level agree on every score. */
  lemma ColorAgreesWithLevel(score: real)
    ensures CircularityColor(score) == Success <==> CircularityLevel(score) == Excellent
    ensures CircularityColor(score) == Warning <==> CircularityLevel(score) == Good
    ensures CircularityColor(score) == Destructive <==>
              CircularityLevel(score) == Fair || CircularityLevel(score) == Poor
  {
  }

  /** The recommendation badge: 'High' is green, 'Medium' amber, any other string red. */
  function FeasibilityTone(feasibility: string): (t: Tone)
    ensures t == Success <==> feasibility == "High"
    ensures t == Warning <==> feasibility == "Medium"
  {
    if feasibility == "High" then Success
    else if feasibility == "Medium" then Warning
    else Destructive
  }

  /** How alarming a tone is: success 0, warning 1, destructive 2. */
  function ToneRank(t: Tone): nat {
    match t
    case Success => 0
    case Warning => 1
    case Destructive => 2
  }

  /** The three feasibility levels get three tones, more alarming as feasibility drops. */
  lemma FeasibilityTonesOrdered()
    ensures ToneRank(FeasibilityTone("High")) < ToneRank(FeasibilityTone("Medium"))
    ensures ToneRank(FeasibilityTone("Medium")) < ToneRank(FeasibilityTone("Low"))
  {
  }

  /** The trend icon shown next to a cost change. */
  datatype Trend = TrendDown | TrendUp

  /** Cost-change icon: down for a saving, up otherwise (zero included). */
  function CostTrend(change: real): (t: Trend)
    ensures t == TrendDown <==> change < 0.0
  {
    if change < 0.0 then TrendDown else TrendUp
  }

  /** The sign prefix printed before a cost change: '+' only for a strict increase. */
  function CostPrefix(change: real): (p: string)
    ensures p == "+" <==> change > 0.0
    ensures p == "" <==> change <= 0.0
  {
    if change > 0.0 then "+" else ""
  }

  /**
   * Icon and prefix together: a zero change shows the up-trend icon with no
   * '+', and a '+' is never shown next to the down-trend icon.
   */
  lemma CostDisplayConsistent(change: real)
    ensures CostPrefix(change) == "+" ==> CostTrend(change) == TrendUp
    ensures CostTrend(change) == TrendDown ==> CostPrefix(change) == ""
    ensures change == 0.0 ==> CostTrend(change) == TrendUp && CostPrefix(change) == ""
  {
  }

  datatype Hotspot = Hotspot(stage: string, co2SharePct: real, value: real)

  datatype Recommendation = Recommendation(
    rank: int,
    title: string,
    estimatedCo2Reduction: real,
    estimatedCostChange: real,
    feasibility: string)

  datatype AssessmentResult = AssessmentResult(
    assessmentName: string,
    metal: string,
    circularityScore: real,
    co2TonnesPerTonne: real,
    energyKwhPerTonne: real,
    waterLPerTonne: real,
    hotspots: seq<Hotspot>,
    recommendations: seq<Recommendation>)

  /** The result fixture the page renders (descriptions omitted). */
  const MockResults: AssessmentResult := AssessmentResult(
    "Aluminium Automotive Component",
    "aluminium",
    78.5,
    4.2,
    12500.0,
    8500.0,
    [ Hotspot("Primary Smelting", 65.0, 2.73),
      Hotspot("Transport", 20.0, 0.84),
      Hotspot("Processing", 10.0, 0.42),
      Hotspot("End-of-Life", 5.0, 0.21) ],
    [ Recommendation(1, "Increase Recycled Content", 1.2, -5.2, "High"),
      Recommendation(2, "Switch to Renewable Energy", 1.8, 12.5, "Medium"),
      Recommendation(3, "Optimize Transport Routes", 0.4, -2.1, "High") ])

  function SumShares(hs: seq<Hotspot>): real
    decreases |hs|
  {
    if hs == [] then 0.0 else hs[0].co2SharePct + SumShares(hs[1..])
  }

  function SumValues(hs: seq<Hotspot>): real
    decreases |hs|
  {
    if hs == [] then 0.0 else hs[0].value + SumValues(hs[1..])
  }

  /** Each hotspot's tonnage is its share of the total. */
  predicate ValuesFollowShares(hs: seq<Hotspot>, total: real) {
    forall i :: 0 <= i < |hs| ==> hs[i].value == hs[i].co2SharePct * total / 100.0
  }

  /** Hotspots listed largest share first. */
  predicate SharesNonIncreasing(hs: seq<Hotspot>) {
    forall i, j :: 0 <= i < j < |hs| ==> hs[i].co2SharePct >= hs[j].co2SharePct
  }

  /** When every tonnage is its share of `total`, the tonnages add up to that share of `total`. */
  lemma {:induction false} ValuesSumFollowsShares(hs: seq<Hotspot>, total: real)
    requires ValuesFollowShares(hs, total)
    ensures SumValues(hs) == SumShares(hs) * total / 100.0
    decreases |hs|
  {
    if hs != [] {
      assert ValuesFollowShares(hs[1..], total) by {
        forall i | 0 <= i < |hs[1..]|
          ensures hs[1..][i].value == hs[1..][i].co2SharePct * total / 100.0
        {
          assert hs[1..][i] == hs[i + 1];
        }
      }
      ValuesSumFollowsShares(hs[1..], total);
    }
  }

  /**
   * The hotspot fixture is consistent: shares add up to 100 and are listed
   * largest first, each tonnage is its share of the 4.2 t total, and the
   * tonnages add up to that total.
   */
  lemma HotspotFixtureConsistent()
    ensures SumShares(MockResults.hotspots) == 100.0
    ensures SharesNonIncreasing(MockResults.hotspots)
    ensures ValuesFollowShares(MockResults.hotspots, MockResults.co2TonnesPerTonne)
    ensures SumValues(MockResults.hotspots) == MockResults.co2TonnesPerTonne
  {
    var hs := MockResults.hotspots;
    assert SumShares(hs) == 100.0;
    ValuesSumFollowsShares(hs, MockResults.co2TonnesPerTonne);
  }

  /** Ranks are 1, 2, … in list order. */
  predicate DenseRanks(recs: seq<Recommendation>) {
    forall i :: 0 <= i < |recs| ==> recs[i].rank == i + 1
  }

  predicate SortedByReduction(recs: seq<Recommendation>) {
    forall i, j :: 0 <= i < j < |recs| ==>
      recs[i].estimatedCo2Reduction >= recs[j].estimatedCo2Reduction
  }

  /**
   * The recommendation fixture is ranked 1..3 but not by estimated CO2
   * reduction: rank 2 promises more (1.8 t) than rank 1 (1.2 t).
   */
  lemma RecommendationFixtureRanks()
    ensures DenseRanks(MockResults.recommendations)
    ensures !SortedByReduction(MockResults.recommendations)
  {
    var recs := MockResults.recommendations;
    assert recs[0].estimatedCo2Reduction < recs[1].estimatedCo2Reduction;
  }

  /** What the page shows for the fixture: a "Good" score in amber, and each recommendation's badge and cost icon. */
  lemma FixtureDisplay()
    ensures CircularityLevel(MockResults.circularityScore) == Good
    ensures CircularityColor(MockResults.circularityScore) == Warning
    ensures FeasibilityTone(MockResults.recommendations[1].feasibility) == Warning
    ensures CostTrend(MockResults.recommendations[0].estimatedCostChange) == TrendDown
    ensures CostPrefix(MockResults.recommendations[1].estimatedCostChange) == "+"
  {
  }
}

=== FILE: text.dfy ===
/**
 * String helpers used by the page logic: ASCII lower-casing (the model of
 * `String.prototype.toLowerCase`), substring search (`includes`) and the
 * decimal rendering of a non-negative integer id (`Number.prototype.toString`).
 */
module Text {

  predicate IsUpper(c: char) {
    'A' <= c <= 'Z'
  }

  /** Lower-cases one ASCII letter; every other character is left as it is. */
  function LowerChar(c: char): (r: char)
    ensures !IsUpper(r)
    ensures IsUpper(c) ==> r as int == c as int + 32
    ensures !IsUpper(c) ==> r == c
  {
    if IsUpper(c) then (c as int + 32) as char else c
  }

  /** ASCII model of `toLowerCase`: same length, each character lower-cased. */
  function ToLower(s: string): (r: string)
    ensures |r| == |s|
    ensures forall i :: 0 <= i < |r| ==> !IsUpper(r[i])
  {
    seq(|s|, i requires 0 <= i < |s| => LowerChar(s[i]))
  }

  /** Lower-casing twice is lower-casing once. */
  lemma ToLowerIdempotent(s: string)
    ensures ToLower(ToLower(s)) == ToLower(s)
  {
  }

  predicate IsPrefix(p: string, s: string) {
    |p| <= |s| && s[..|p|] == p
  }

  /** Model of `haystack.includes(needle)`, searched left to right. */
  predicate Contains(haystack: string, needle: string)
    decreases |haystack|
  {
    IsPrefix(needle, haystack) || (|haystack| > 0 && Contains(haystack[1..], needle))
  }

  /** Reference definition: `needle` occurs at some position of `haystack`. */
  ghost predicate OccursAt(haystack: string, needle: string, i: int) {
    0 <= i && i + |needle| <= |haystack| && haystack[i..i + |needle|] == needle
  }

  /** The left-to-right search agrees with the positional definition of an occurrence. */
  lemma {:induction false} ContainsIffOccurs(haystack: string, needle: string)
    ensures Contains(haystack, needle) <==> exists i :: OccursAt(haystack, needle, i)
    decreases |haystack|
  {
    if IsPrefix(needle, haystack) {
      assert OccursAt(haystack, needle, 0);
    } else if |haystack| == 0 {
      assert forall i :: !OccursAt(haystack, needle, i);
    } else {
      var tail := haystack[1..];
      ContainsIffOccurs(tail, needle);
      if Contains(tail, needle) {
        var i :| OccursAt(tail, needle, i);
        assert haystack[i + 1..i + 1 + |needle|] == tail[i..i + |needle|];
        assert OccursAt(haystack, needle, i + 1);
      } else {
        forall i
          ensures !OccursAt(haystack, needle, i)
        {
          if 1 <= i && i + |needle| <= |haystack| {
            assert tail[i - 1..i - 1 + |needle|] == haystack[i..i + |needle|];
            assert !OccursAt(tail, needle, i - 1);
          }
        }
      }
    }
  }

  /** Every string contains the empty string (`s.includes('')` is true). */
  lemma {:induction false} ContainsEmpty(s: string)
    ensures Contains(s, "")
  {
    assert IsPrefix("", s);
  }

  function DigitChar(d: nat): (c: char)
    requires d < 10
    ensures '0' <= c <= '9'
  {
    ('0' as int + d) as char
  }

  function DigitValue(c: char): nat
    requires '0' <= c <= '9'
  {
    c as int - '0' as int
  }

  predicate AllDigits(s: string) {
    forall i :: 0 <= i < |s| ==> '0' <= s[i] <= '9'
  }

  /** Decimal rendering of a non-negative integer: digits only, no leading zero. */
  function NatToString(n: nat): (r: string)
    ensures |r| >= 1
    ensures AllDigits(r)
    ensures |r| > 1 ==> r[0] != '0'
    decreases n
  {
    if n < 10 then [DigitChar(n)] else NatToString(n / 10) + [DigitChar(n % 10)]
  }

  /** Reads a string of decimal digits back as a number. */
  function ParseDecimal(s: string): nat
    requires AllDigits(s)
  {
    if s == [] then 0 else ParseDecimal(s[..|s| - 1]) * 10 + DigitValue(s[|s| - 1])
  }

  /** Reading the rendering of `n` gives `n` back. */
  lemma {:induction false} ParseNatToString(n: nat)
    ensures ParseDecimal(NatToString(n)) == n
    decreases n
  {
    var r := NatToString(n);
    if n < 10 {
      assert r[..0] == [];
    } else {
      var prefix := NatToString(n / 10);
      assert r[..|r| - 1] == prefix;
      ParseNatToString(n / 10);
    }
  }

  /** Distinct numbers render to distinct strings. */
  lemma NatToStringInjective(a: nat, b: nat)
    ensures NatToString(a) == NatToString(b) <==> a == b
  {
    if NatToString(a) == NatToString(b) {
      ParseNatToString(a);
      ParseNatToString(b);
    }
  }
}

=== FILE: wizard.dfy ===
/**
 * The new-assessment wizard (src/pages/NewAssessment.tsx): five fixed steps,
 * a step counter moved by guarded next/previous actions, a form record
 * updated one field at a time, and two coupled sliders for primary and
 * recycled content.
 */
module Wizard {

  datatype Step = Step(id: int, name: string, description: string)

  const Steps: seq<Step> := [
    Step(1, "Basic Info", "Project details and metal selection"),
    Step(2, "Production Route", "Primary vs recycled content"),
    Step(3, "Energy & Transport", "Energy sources and logistics"),
    Step(4, "End-of-Life", "Recovery and recycling options"),
    Step(5, "Review", "Confirm and run assessment")
  ]

  const StepCount: int := |Steps|

  /** The step counter's invariant: a valid 1-based position in `Steps`. */
  predicate ValidStep(s: int) {
    1 <= s <= StepCount
  }

  /** The counter starts at the first step. */
  const InitialStep: int := 1

  /** `nextStep`: advances unless already at the last step. */
  function NextStep(s: int): (r: int)
    ensures ValidStep(s) ==> ValidStep(r)
    ensures s < StepCount ==> r == s + 1
    ensures s >= StepCount ==> r == s
  {
    if s < StepCount then s + 1 else s
  }

  /** `prevStep`: goes back unless already at the first step. */
  function PrevStep(s: int): (r: int)
    ensures ValidStep(s) ==> ValidStep(r)
    ensures s > 1 ==> r == s - 1
    ensures s <= 1 ==> r == s
  {
    if s > 1 then s - 1 else s
  }

  /** The two navigation buttons a user can press. */
  datatype Nav = Next | Previous

  function Apply(s: int, n: Nav): int {
    match n
    case Next => NextStep(s)
    case Previous => PrevStep(s)
  }

  /** The step reached after pressing the buttons in `navs`, in order. */
  function Run(s: int, navs: seq<Nav>): int
    decreases |navs|
  {
    if navs == [] then s else Run(Apply(s, navs[0]), navs[1..])
  }

  /** Any sequence of button presses keeps the counter within 1..5. */
  lemma {:induction false} RunKeepsStepValid(s: int, navs: seq<Nav>)
    requires ValidStep(s)
    ensures ValidStep(Run(s, navs))
    decreases |navs|
  {
    if navs != [] {
      RunKeepsStepValid(Apply(s, navs[0]), navs[1..]);
    }
  }

  /** In particular, every reachable step from the initial one is valid. */
  lemma ReachableStepsValid(navs: seq<Nav>)
    ensures 1 <= Run(InitialStep, navs) <= StepCount
  {
    RunKeepsStepValid(InitialStep, navs);
  }

  /** Next at the last step and Previous at the first step change nothing. */
  lemma BoundaryNavigationIsNoOp()
    ensures NextStep(StepCount) == StepCount
    ensures PrevStep(1) == 1
  {
  }

  /** Next and Previous undo each other away from the boundaries. */
  lemma NextPrevInverse(s: int)
    requires ValidStep(s)
    ensures s < StepCount ==> PrevStep(NextStep(s)) == s
    ensures s > 1 ==> NextStep(PrevStep(s)) == s
  {
  }

  /** The card header of the current step (`steps[currentStep - 1]`). */
  function CurrentStepInfo(s: int): (r: Step)
    requires ValidStep(s)
    ensures r in Steps
    ensures r.id == s
  {
    Steps[s - 1]
  }

  /** `progress = currentStep / steps.length * 100`, in percent. */
  function Progress(s: int): (r: real)
    ensures ValidStep(s) ==> 20.0 <= r <= 100.0
    ensures ValidStep(s) ==> (r == 100.0 <==> s == StepCount)
    ensures r * StepCount as real == s as real * 100.0
  {
    (s as real / StepCount as real) * 100.0
  }

  /** Progress grows with the step, so Next never lowers the progress bar. */
  lemma ProgressMonotone(s: int, t: int)
    requires s <= t
    ensures Progress(s) <= Progress(t)
    ensures ValidStep(s) ==> Progress(s) <= Progress(NextStep(s))
  {
  }

  /** How a step's marker in the step strip is drawn. */
  datatype Marker = Current | Completed | Upcoming

  /** Step `id` is the current one, completed (check icon) or still to come. */
  function StepMarker(id: int, current: int): (m: Marker)
    ensures m == Current <==> id == current
    ensures m == Completed <==> id < current
  {
    if id == current then Current else if id < current then Completed else Upcoming
  }

  /** The strip marks exactly one step current and the `current - 1` before it completed. */
  lemma StripMarksOneCurrent(current: int)
    requires ValidStep(current)
    ensures forall i :: 0 <= i < |Steps| ==>
              (StepMarker(Steps[i].id, current) == Current <==> i == current - 1)
    ensures forall i :: 0 <= i < |Steps| ==>
              (StepMarker(Steps[i].id, current) == Completed <==> i < current - 1)
  {
  }

  /** The right-hand button: Next before the last step, Run Assessment on it. */
  datatype ForwardButton = NextButton | RunAssessmentButton

  function Forward(s: int): (r: ForwardButton)
    ensures ValidStep(s) ==> (r == RunAssessmentButton <==> NextStep(s) == s)
  {
    if s < StepCount then NextButton else RunAssessmentButton
  }

  /** The Previous button's `disabled` attribute. */
  function PreviousDisabled(s: int): (r: bool)
    ensures ValidStep(s) ==> (r <==> PrevStep(s) == s)
  {
    s == 1
  }

  /**
   * The buttons match the guards: Run Assessment replaces Next exactly where
   * `nextStep` would do nothing, and Previous is disabled exactly where
   * `prevStep` would do nothing.
   */
  lemma ButtonsMatchGuards(s: int)
    requires ValidStep(s)
    ensures Forward(s) == RunAssessmentButton <==> s == StepCount
    ensures Forward(s) == RunAssessmentButton <==> NextStep(s) == s
    ensures PreviousDisabled(s) <==> PrevStep(s) == s
  {
  }

  /**
   * A form value as `updateData` accepts it: its parameter is typed
   * `string | number` whatever the field, so each field holds either.
   */
  datatype Value = Str(s: string) | Num(n: real)

  datatype Field =
    | Name | Metal | PrimaryPercent | RecycledPercent
    | EnergySource | TransportDistance | EndOfLifeRecovery | PlantCapacity

  datatype AssessmentData = AssessmentData(
    name: Value,
    metal: Value,
    primaryPercent: Value,
    recycledPercent: Value,
    energySource: Value,
    transportDistance: Value,
    endOfLifeRecovery: Value,
    plantCapacity: Value)

  /** The form's starting values. */
  const InitialData: AssessmentData := AssessmentData(
    Str(""), Str(""), Num(70.0), Num(30.0), Str(""), Num(500.0), Num(60.0), Num(100000.0))

  /** Reads one field of the record (`data[field]`). */
  function Get(d: AssessmentData, f: Field): Value {
    match f
    case Name => d.name
    case Metal => d.metal
    case PrimaryPercent => d.primaryPercent
    case RecycledPercent => d.recycledPercent
    case EnergySource => d.energySource
    case TransportDistance => d.transportDistance
    case EndOfLifeRecovery => d.endOfLifeRecovery
    case PlantCapacity => d.plantCapacity
  }

  /** `updateData(field, value)`: `{ ...prev, [field]: value }`. */
  function UpdateData(d: AssessmentData, f: Field, v: Value): (r: AssessmentData)
    ensures Get(r, f) == v
    ensures forall g :: g != f ==> Get(r, g) == Get(d, g)
  {
    match f
    case Name => d.(name := v)
    case Metal => d.(metal := v)
    case PrimaryPercent => d.(primaryPercent := v)
    case RecycledPercent => d.(recycledPercent := v)
    case EnergySource => d.(energySource := v)
    case TransportDistance => d.(transportDistance := v)
    case EndOfLifeRecovery => d.(endOfLifeRecovery := v)
    case PlantCapacity => d.(plantCapacity := v)
  }

  /** Two records that agree on every field are the same record. */
  lemma {:induction false} Extensionality(d: AssessmentData, e: AssessmentData)
    requires forall f :: Get(d, f) == Get(e, f)
    ensures d == e
  {
    assert Get(d, Name) == Get(e, Name);
    assert Get(d, Metal) == Get(e, Metal);
    assert Get(d, PrimaryPercent) == Get(e, PrimaryPercent);
    assert Get(d, RecycledPercent) == Get(e, RecycledPercent);
    assert Get(d, EnergySource) == Get(e, EnergySource);
    assert Get(d, TransportDistance) == Get(e, TransportDistance);
    assert Get(d, EndOfLifeRecovery) == Get(e, EndOfLifeRecovery);
    assert Get(d, PlantCapacity) == Get(e, PlantCapacity);
  }

  /** Writing back a field's own value changes nothing; a later write to the same field wins. */
  lemma UpdateLaws(d: AssessmentData, f: Field, v: Value, w: Value)
    ensures UpdateData(d, f, Get(d, f)) == d
    ensures UpdateData(UpdateData(d, f, v), f, w) == UpdateData(d, f, w)
  {
    Extensionality(UpdateData(d, f, Get(d, f)), d);
    Extensionality(UpdateData(UpdateData(d, f, v), f, w), UpdateData(d, f, w));
  }

  /** The production-route invariant: both contents are numbers adding up to 100. */
  predicate ContentBalanced(d: AssessmentData) {
    d.primaryPercent.Num? && d.recycledPercent.Num? &&
    d.primaryPercent.n + d.recycledPercent.n == 100.0
  }

  /** Moving the primary-content slider to `x` sets recycled content to `100 - x`. */
  function OnPrimarySlide(d: AssessmentData, x: real): (r: AssessmentData)
    ensures ContentBalanced(r)
    ensures Get(r, PrimaryPercent) == Num(x)
    ensures forall g :: g != PrimaryPercent && g != RecycledPercent ==> Get(r, g) == Get(d, g)
  {
    UpdateData(UpdateData(d, PrimaryPercent, Num(x)), RecycledPercent, Num(100.0 - x))
  }

  /** Moving the recycled-content slider to `x` sets primary content to `100 - x`. */
  function OnRecycledSlide(d: AssessmentData, x: real): (r: AssessmentData)
    ensures ContentBalanced(r)
    ensures Get(r, RecycledPercent) == Num(x)
    ensures forall g :: g != PrimaryPercent && g != RecycledPercent ==> Get(r, g) == Get(d, g)
  {
    UpdateData(UpdateData(d, RecycledPercent, Num(x)), PrimaryPercent, Num(100.0 - x))
  }

  /** A slider position within its range 0..100 leaves both contents within 0..100. */
  lemma SlidersStayInRange(d: AssessmentData, x: real)
    requires 0.0 <= x <= 100.0
    ensures var r := OnPrimarySlide(d, x);
            0.0 <= r.primaryPercent.n <= 100.0 && 0.0 <= r.recycledPercent.n <= 100.0
    ensures var r := OnRecycledSlide(d, x);
            0.0 <= r.primaryPercent.n <= 100.0 && 0.0 <= r.recycledPercent.n <= 100.0
  {
  }

  /** The two sliders agree: setting primary to `x` is setting recycled to `100 - x`. */
  lemma SlidersAgree(d: AssessmentData, x: real)
    ensures OnPrimarySlide(d, x) == OnRecycledSlide(d, 100.0 - x)
  {
    Extensionality(OnPrimarySlide(d, x), OnRecycledSlide(d, 100.0 - x));
  }

  /** The whole wizard: the step counter and the form record. */
  datatype WizardState = WizardState(currentStep: int, data: AssessmentData)

  const InitialState: WizardState := WizardState(InitialStep, InitialData)

  predicate WizardInvariant(w: WizardState) {
    ValidStep(w.currentStep) && ContentBalanced(w.data)
  }

  /** Everything the user can do on the page, apart from submitting. */
  datatype Action =
    | Navigate(nav: Nav)
    | Edit(field: Field, value: Value)
    | SlidePrimary(x: real)
    | SlideRecycled(x: real)

  /** Edits the sliders do not own: any field other than the two contents. */
  predicate KeepsContents(a: Action) {
    a.Edit? ==> a.field != PrimaryPercent && a.field != RecycledPercent
  }

  /** The state after one user action. */
  function Perform(w: WizardState, a: Action): (r: WizardState)
    ensures a.Navigate? ==> r.data == w.data
    ensures !a.Navigate? ==> r.currentStep == w.currentStep
  {
    match a
    case Navigate(n) => w.(currentStep := Apply(w.currentStep, n))
    case Edit(f, v) => w.(data := UpdateData(w.data, f, v))
    case SlidePrimary(x) => w.(data := OnPrimarySlide(w.data, x))
    case SlideRecycled(x) => w.(data := OnRecycledSlide(w.data, x))
  }

  function RunActions(w: WizardState, actions: seq<Action>): WizardState
    decreases |actions|
  {
    if actions == [] then w else RunActions(Perform(w, actions[0]), actions[1..])
  }

  /** The initial state satisfies the invariant (step 1, contents 70/30). */
  lemma InitialStateValid()
    ensures WizardInvariant(InitialState)
    ensures InitialState.data.primaryPercent == Num(70.0)
    ensures InitialState.data.recycledPercent == Num(30.0)
    ensures Progress(InitialState.currentStep) == 20.0
  {
  }

  /**
   * Every action the page wires up keeps the invariant, as long as the
   * generic text and number inputs do not write the two content fields
   * (on the page only the sliders write them).
   */
  lemma {:induction false} ActionsPreserveInvariant(w: WizardState, actions: seq<Action>)
    requires WizardInvariant(w)
    requires forall i :: 0 <= i < |actions| ==> KeepsContents(actions[i])
    ensures WizardInvariant(RunActions(w, actions))
    decreases |actions|
  {
    if actions != [] {
      var a := actions[0];
      var w' := Perform(w, a);
      assert KeepsContents(a);
      if a.Navigate? {
        RunKeepsStepValid(w.currentStep, [a.nav]);
        assert Run(w.currentStep, [a.nav]) == Apply(w.currentStep, a.nav);
      }
      assert WizardInvariant(w');
      ActionsPreserveInvariant(w', actions[1..]);
    }
  }
}
